=== FILE: README.md ===
# st-test object store, modelled in Dafny

`st-test` is a small HTTP service that keeps binary JSON objects under integer keys.
Its core is an in-memory store, a `map[int]models.Item`. The store meets its
persistence backend (the `repo` interface: `Insert`, `ReadAll`, `DeleteAll`) at two
points only:

- it loads every persisted row when it is constructed;
- it writes a clear-then-reinsert snapshot when it is stopped.

In between, `SaveObject`, `GetObject` and `Check` work from memory alone. Around the
store sit a few decision tables:

- the PUT and GET object handlers;
- the `HandlerError` values;
- the `responder.JSON` writer;
- the Content-Type middleware;
- the liveness and readiness probes;
- the option resolution of `logger.New`.

This project models all of these as immutable datatypes and pure functions. It
proves their contracts and the laws that connect them.

Modules, one per source file:

- `Wrappers` holds `Option` and `Result`.
- `Models` holds `Item`, the error values, and bytes with the UTF-8 text conversion.
- `Backend` is the `repo` interface. Its state is the rows it holds plus a trace of
  the calls it received. A fault oracle (`Faults`) decides which calls fail.
- `Storage` holds the store operations. `StorageLemmas` holds the laws over
  sequences of calls and over a stop followed by a restart.
- `Http` is the response writer, recorded as headers, the status codes written in
  order, and the body. It also models `http.Error`.
- `Responder`, `HandlerErrors`, `AppType`, `Healthz`, `Api` and `Logger` each follow
  the source file of the same name.

**Saving a stored key does not overwrite it.** The comment in
`internal/http/handler/api/handler.go` at line 106 calls the 204 answer "updated".
But `SaveObject` returns `0, nil` for a key that is already stored, and it keeps the
old item (`internal/storage/storage.go:59-64`). The model follows the code. A
save of key 1 followed by a second save of key 1 leaves the first body in place
(`StorageLemmas.SecondSaveKeepsFirst`, `Api.PutExistingKey`).

A fresh save of key 0 also returns 0. The handler cannot tell that apart from
"already present", so it answers 204 although it created the object
(`Api.PutFreshZeroKey`).

On an empty table, the sqlite backend's `ReadAll` returns an empty slice rather
than `ErrNotFound` (`internal/repo/sqlite.go:78-101`). `loadItems` turns both
outcomes into the same empty store, and the fault oracle can produce either.

## Model

| member | source | states |
|---|---|---|
| Storage.SaveObject | internal/storage/storage.go:54-71 | never returns an error. The returned id is 0 iff the key was present or is 0. A present key leaves the store exactly as it was: no overwrite. An absent key is inserted unchanged, its id is returned, and the map grows by exactly one. Existing entries are never changed. Items stay stored under their own id. |
| Storage.GetObject | internal/storage/storage.go:74-90 | a present key gives the stored item and no error. An absent key gives the zero item and `ErrNotFound`. The store is not an output, so reading never modifies it. |
| Storage.Check | internal/storage/storage.go:93-99 | `errNotAvailable` exactly when the map is nil, and nil otherwise |
| Storage.ApplyLaterWins | internal/storage/storage.go:118-120 | putting items in the map in order adds exactly their ids. For an id that occurs several times, the last occurrence wins. Keys not read are untouched. Items stay stored under their own id. |
| Storage.LoadItems | internal/storage/storage.go:101-123 | makes exactly one `ReadAll` call. On any read error, `ErrNotFound` or another, the map stays empty and nothing escapes. On success the keys are exactly the ids read, and each holds the last row with that id. |
| Storage.NewStore | internal/storage/storage.go:36-46 | the map is initialised, so `Check` succeeds after construction whatever the backend did. The backend gets one `ReadAll` and its rows are untouched. A failed read gives an empty store. A successful read gives exactly the ids read. |
| Storage.InsertEach | internal/storage/storage.go:142-152 | attempts one `Insert` per item, in order, whatever earlier inserts returned: the backend sees exactly those calls. At most one row is added per item. |
| Storage.InsertEachAppends | internal/storage/storage.go:142-152 | the insert loop only appends: rows already held are kept in front, and every new row is one of the items |
| Storage.InsertEachReliable | internal/storage/storage.go:142-152 | with no failing insert, exactly the items are appended, in order |
| Storage.Stop | internal/storage/storage.go:125-152 | on an empty (or nil) map, no backend call at all. If `DeleteAll` fails, only that call is made and the rows are unchanged. Otherwise `DeleteAll` comes first, then one `Insert` per stored item in iteration order, and every persisted row is one of the stored items. |
| Storage.ReliableInsertPersists | internal/storage/storage.go:143-151 | an item whose `Insert` never fails ends up among the persisted rows, whatever the other inserts do: a failed insert is skipped and never stops the loop |
| StorageLemmas.SaveAllKeeps | internal/storage/storage.go:59-70 | over any sequence of saves the map stays initialised, no entry is lost or changed, and the keys grow by exactly the ids saved |
| StorageLemmas.SaveAllFirstWins | internal/storage/storage.go:59-66 | over any sequence of saves, a new key holds the item of its first save. Later saves of that key are ignored. |
| StorageLemmas.SecondSaveKeepsFirst | internal/storage/storage_test.go:44-60 | the first save of a new key returns the key and the second returns 0. A later get returns the first item. |
| StorageLemmas.SnapshotExactlyOnce | internal/storage/storage.go:142 | the values listed in any iteration order number exactly the entries. Every stored item is among them and nothing else is. When items sit under their own ids, the list is a permutation of the map's values. |
| StorageLemmas.StopAttemptsEveryItem | internal/storage/storage.go:132-152 | after a successful `DeleteAll`, `Stop` makes exactly 1 + n calls, `DeleteAll` first. Every one of the n stored items gets its `Insert`, whichever inserts fail. |
| StorageLemmas.StopDeleteFailureInsertsNothing | internal/storage/storage.go:132-137 | a failed `DeleteAll` leaves the rows as they were, and no `Insert` reaches the backend |
| StorageLemmas.LoadSnapshot | internal/storage/storage.go:118-120 | loading a snapshot of a map whose items sit under their own ids gives back that same map |
| StorageLemmas.RestartRestores | internal/storage/storage.go:36-46 | for a non-empty store whose items sit under their own ids, with a backend that never fails, a stop followed by a new construction restores exactly the objects the store held |
| StorageLemmas.LoadStoredIsSubmap | internal/storage/storage.go:118-120 | loading rows that are all stored entries gives part of the map, entry for entry |
| StorageLemmas.RestartLosesOnlyFailedInserts | internal/storage/storage.go:142-152 | for a non-empty store whose items sit under their own ids, after a successful `DeleteAll` and a successful read at the next start, whatever the inserts do, the next construction reloads only objects the store held, each unchanged. A failed insert loses an object but never alters one. Conversely, a stored object whose `Insert` never fails is reloaded, so only failed inserts lose objects. |
| StorageLemmas.EmptyStopKeepsStaleRows | internal/storage/storage.go:126-130 | an empty store makes `Stop` leave the backend exactly as it was, so the next start reloads the rows already there (for instance after a failed first read), not the empty set of objects the store held |
| StorageLemmas.FailedLoadThenSaveDropsOldRows | internal/storage/storage.go:36-46 | after a failed first read, one save and a stop on a backend that never fails, the backend holds exactly the saved item: none of its old rows remain |
| StorageLemmas.StoppedReliableItemPersists | internal/storage/storage.go:142-152 | after a successful `DeleteAll`, a stored item whose `Insert` never fails is among the rows `Stop` leaves in the backend |
| Responder.DefaultContentType | internal/http/handler/responder/responder.go:16-18 | a missing Content-Type becomes "application/json; charset=utf-8". A present one is left as it is, and no other header changes. |
| Responder.Status | internal/http/handler/responder/responder.go:29-35 | the model's own status code when it has one and it is non-zero. Otherwise 200. |
| Responder.JSON | internal/http/handler/responder/responder.go:15-40 | if `ToJSON` fails: JSON Content-Type forced, status 500, and exactly the quoted fallback message as body. On success: an existing Content-Type is kept, exactly one status is written (the model's non-zero code, else 200), then the encoded bytes exactly. No other header changes. It requires that a model which encodes and has a non-zero status code carries a valid one: with any other code, net/http panics. |
| HandlerErrors.NewNotFoundError | internal/http/handler/handlererrors/errors.go:27-34 | code "NOT_FOUND", the title passed, empty detail, status 404 |
| HandlerErrors.NewInvalidInput | internal/http/handler/handlererrors/errors.go:36-43 | code "ERR_INVALID_INPUT", title and detail passed through unchanged, status 400 |
| HandlerErrors.NewInternalError | internal/http/handler/handlererrors/errors.go:45-52 | code "ERR_APP_CODE", title and detail passed through unchanged, status 500 |
| HandlerErrors.ErrorString | internal/http/handler/handlererrors/errors.go:54-56 | the text is the code, ": ", the title, ": ", then the detail, with nothing else |
| HandlerErrors.ErrorStringsDiffer | internal/http/handler/handlererrors/errors.go:27-56 | the `Error()` texts of a not-found, an invalid-input and an internal error never coincide, whatever their titles and details |
| HandlerErrors.StatusFollowsCode | internal/http/handler/handlererrors/errors.go:58-60 | for an error built by one of the three constructors, `StatusCode()` is 404, 400 or 500 exactly when the code is NOT_FOUND, ERR_INVALID_INPUT or ERR_APP_CODE, and it is a status `WriteHeader` accepts |
| HandlerErrors.AsModel | internal/http/handler/handlererrors/errors.go:58-64 | a `HandlerError` as `responder.JSON` sees it: `ToJSON` never fails and gives the marshalled code, title and detail, and the error reports its own status code. A constructed error can be written without a panic. |
| HandlerErrors.RespondWithError | internal/http/handler/responder/responder.go:29-39 | `responder.JSON` writes a constructed error as exactly its own status code, then its JSON |
| AppType.ApplicationType | internal/http/handler/middlewares/apptype/apptype.go:13-29 | exactly one of forward or reject. GET is always forwarded. Any other method is forwarded iff Content-Type is exactly "application/json". A rejection writes 400 and the body "unknown Content-Type\n" as plain text. |
| AppType.CharsetAndMissingTypeRejected | internal/http/handler/middlewares/apptype/apptype_test.go:36-58 | a PUT with "application/json; charset=utf-8" or with no Content-Type is rejected. A PUT with "application/json" is forwarded. |
| Healthz.Probe | internal/http/handler/healthz/handler.go:32-53 | what both `Liveness` and `Readiness` write: a nil `Check()` gives 200 and no body, an error gives 503 with the error's text as body. Headers are left alone. |
| Healthz.ConstructedStoreIsLive | internal/storage/storage.go:93-99 | a store built by `NewStore` always answers the liveness probe with 200 |
| Api.AddObjectStart | internal/http/handler/api/handler.go:49-97 | the store is called iff the id parses, the body is read and it is JSON, whatever X-EXPIRES holds. Otherwise the reply is 400 InvalidInput titled "failed get object id", "failed read body" or "failed check body on json", with the error text as detail. The saved item carries exactly the parsed id and the raw body bytes. An absent or unparseable X-EXPIRES gives a zero duration. |
| Api.AddObjectFinish | internal/http/handler/api/handler.go:98-117 | a store error gives 500 InternalError "failed save object". A returned id of 0 gives 204, any other id gives 200. Neither success writes a body or header. |
| Api.ObjectStart | internal/http/handler/api/handler.go:123-130 | the store is consulted iff the id parses. Otherwise the reply is 400 "failed get object id". |
| Api.ObjectFinish | internal/http/handler/api/handler.go:133-146 | `ErrNotFound` gives 404 with the NOT_FOUND error, any other error gives 500 ERR_APP_CODE. Success gives 200 with the item body byte for byte and a JSON Content-Type when none was set. |
| Api.UnknownContentTypeNeverReachesStore | internal/http/handler/middlewares/apptype/apptype.go:13-28 | behind the middleware, any non-GET request whose Content-Type is not exactly "application/json" gets 400 and the middleware's message, and it leaves the store as it was, whatever the request holds. Every other request is served by `AddObject` unchanged. |
| Api.PutNewKey | internal/http/handler/api/handler.go:93-117 | with the real store, a PUT of a new non-zero key answers 200 and stores the item |
| Api.PutExistingKey | internal/storage/storage.go:59-64 | with the real store, a PUT of a stored key answers 204 and leaves the store exactly as it was |
| Api.PutFreshZeroKey | internal/storage/storage.go:66-70 | with the real store, a PUT of key 0 on a store without it creates the object but answers 204, the update answer |
| Api.PutRejectedLeavesStore | internal/http/handler/api/handler.go:51-80 | a PUT refused before the store answers 400 and does not change the store |
| Api.PutThenFetch | internal/http/handler/api/handler.go:93-146 | a PUT of a new key followed by a GET of it gives 200 and the PUT body byte for byte |
| Api.FetchAbsent | internal/http/handler/api/handler.go:133-139 | a GET of a key never stored gives 404 with the NOT_FOUND error "failed get object" |
| Logger.ResolveLevel | internal/logger/logger.go:45-56 | "debug", "info", "warn" and "error", in any case, give Debug, Info, Warn and Error respectively, each iff the lowered string is that word. Anything else gives `ErrUnsupportedLogLevel` with the given string. |
| Logger.ResolveFormat | internal/logger/logger.go:60-67 | "json" or "text", in any case, select the format. Anything else gives `ErrUnsupportedLogFormat`. |
| Logger.New | internal/logger/logger.go:42-87 | the level is checked before the format, so a bad level is reported even when the format is bad too. It succeeds iff both resolve. JSON uses the production preset with time key "time", message key "message" and RFC 3339 nano times. Text uses the development preset. Development = verbose, DisableStacktrace = not verbose, and both output path lists are exactly `[output]`. |
| Logger.CaseInsensitive | internal/logger/logger.go:45-60 | lower-casing the level and format first changes neither whether they resolve nor what they resolve to |

## Left out

- Concurrency. The store's mutex is not modelled, and every operation is atomic and sequential. In the source, `saveItems` reads `len(s.s)` and calls `DeleteAll` outside the lock (`internal/storage/storage.go:126` and `:132`). The model does not show that race.
- Logging. All zap logging and the `context.Context` arguments are left out: they have no effect on results.
- The sqlite backend (`internal/repo/sqlite.go`). The backend is abstract: a list of rows plus a call trace, with failures chosen by an oracle. A sqlite primary-key conflict on a duplicate `Insert` is one possible oracle. `Close`, `Read` and `Delete` are not called by the store. The backend is assumed to change no rows when `DeleteAll` or `Insert` fails (`Backend.DeleteAll`, `Backend.Insert`); sqlite's single-statement DELETE and INSERT give this, and `StorageLemmas.StopDeleteFailureInsertsNothing` and `StorageLemmas.RestartLosesOnlyFailedInserts` rest on it.
- Iteration order. The order of `maps.Values` is a parameter of `Stop`, and any enumeration of the keys is allowed. The snapshot laws are stated for every order, as set and multiset facts.
- Expiry. The `Expires` duration is carried as an opaque integer and nothing acts on it.
- Library calls. JSON validation, `json.Marshal`, `time.ParseDuration`, `strconv.Atoi` and `io.ReadAll` are parameters or inputs: their results are given, not computed. As a result, ids and durations are unbounded integers rather than 64-bit ones.
- Go's nil and empty byte slices are not distinguished. The zero item's nil body is the empty sequence.
- HTTP machinery. chi routing and URL parameters are left out. Header names are taken as already canonical, with one value each. net/http ignores header changes made after `WriteHeader`; this is not modelled, since no handler makes such changes.
- `strings.ToLower` is modelled only as far as comparing against lower-case ASCII words needs. It folds A-Z, U+0130 and U+212A; other characters are kept.
- `zap.Config.Build()` and the encoder settings that `New` does not decide are left out.
- StorageLemmas.RestartRestores: "restores exactly the objects" holds for the abstract backend, which persists whole items. The sqlite backend stores only the id and the body (`internal/repo/sqlite.go:49`) and reads back only those (`internal/repo/sqlite.go:93`). So after a real restart every object's `Expires` is 0. Only the id and body are restored exactly.
- StorageLemmas.RestartLosesOnlyFailedInserts: the same holds here. With the sqlite backend, "each unchanged" holds for the id and body, and `Expires` comes back as 0.
- Http.WriteHeader: net/http panics on a status code outside 100..999. The model does not represent the panic. Instead `WriteHeader` and `http.Error` require a valid code, and `Responder.JSON` requires one of a model that encodes. Every handler passes a fixed valid code, and every constructed `HandlerError` carries one (`HandlerErrors.StatusFollowsCode`).
- The text of the logger's wrapped errors (`"%w: %s"`) is not modelled. `LoggerError` carries which sentinel it wraps and the value given, which is what `errors.Is` and the caller see.
- Api.ObjectFinish: `errors.Is` on a wrapped error is not modelled. The handler also answers 404 for an error that wraps `ErrNotFound` (`internal/http/handler/api/handler.go:135`). The model's errors cannot be wrapped, so it covers a store that reports a missing object with the bare `ErrNotFound`, which the in-memory store does (`internal/storage/storage.go:84`). For any other store, a wrapped not-found would get 404 from Go but 500 from the model.
- `Storage.SaveObject` requires an initialised map, because writing into a nil Go map panics. `NewStore` always initialises it.
- The program calls `Stop` once, at shutdown (`cmd/main.go:93`). A second call would take the snapshot again and repeat `DeleteAll` and the inserts; no lemma covers that case.
- Healthz.Probe: the promise that `Check()` is called exactly once per probe is not a contract. It holds by construction, since `Liveness` and `Readiness` each receive a single `Check()` result and pass it to `Probe`.
- Process glue is left out: `internal/http/service.go`, `cmd/main.go`, `cmd/util/*`, `internal/settings/settings.go` and `internal/signals/os_signal.go`. So are the generated mocks and the tests.

=== FILE: api.dfy ===
/** The object handlers of `internal/http/handler/api`: `AddObject` (PUT) and
    `Object` (GET).

    Each handler is split at its one call into the store: a first function decides
    from the request whether to answer at once or which call to make, a second
    answers from the store's result. Any implementation of the `Storage`
    interface that reports a missing object with the bare `ErrNotFound` is
    covered this way; `Put` and `Fetch` compose the two halves with the store of
    `Storage`. */
module Api {
  import opened Wrappers
  import opened Models
  import opened Http
  import opened HandlerErrors
  import Responder
  import Storage
  import AppType

  /** The library calls the handlers rely on, left uninterpreted: JSON validation
      (None: valid, else the error text), `time.ParseDuration`, and `json.Marshal`
      of a `HandlerError`. */
  datatype Library = Library(
    validate: Bytes -> Option<string>,
    parseDuration: string -> Result<int, string>,
    marshal: Marshal)

  /** A PUT request as the handler reads it: the outcome of `strconv.Atoi` on the
      `objectID` path parameter, the outcome of `io.ReadAll` on the body, and the
      `X-EXPIRES` header ("" when absent). */
  datatype PutRequest = PutRequest(objectId: Result<int, string>, body: Result<Bytes, string>, expires: string)

  /** Where `AddObject` stands before the store: answered, or about to save `item`. */
  datatype PutStep = PutDone(w: Writer) | PutSave(item: Item)

  /** Where `Object` stands before the store: answered, or about to look `id` up. */
  datatype GetStep = GetDone(w: Writer) | GetLookup(id: int)

  /** A `HandlerError` written by `responder.JSON`. */
  function Reply(lib: Library, w: Writer, he: HandlerError): Writer
    requires Constructed(he)
  {
    Responder.JSON(w, AsModel(he, lib.marshal))
  }

  /** The time-to-live the item carries: an absent header gives 0, and so does one
      `time.ParseDuration` refuses (the error is only logged). */
  function Duration(lib: Library, expires: string): int
  {
    if expires == "" then 0
    else match lib.parseDuration(expires)
      case Ok(d) => d
      case Err(_) => 0
  }

  /** `AddObject` up to the store call. */
  function AddObjectStart(lib: Library, req: PutRequest, w: Writer): (r: PutStep)
    // the store is called exactly when the id parses, the body reads and is JSON,
    // whatever the X-EXPIRES header holds
    ensures r.PutSave? <==>
      req.objectId.Ok? && req.body.Ok? && lib.validate(req.body.value).None?
    ensures r.PutSave? ==>
      && r.item.id == req.objectId.value
      && r.item.body == req.body.value
      && r.item.expires == Duration(lib, req.expires)
    ensures r.PutDone? ==> r.w.statuses == w.statuses + [400]
    ensures req.objectId.Err? ==>
      r == PutDone(Reply(lib, w, NewInvalidInput("failed get object id", req.objectId.error)))
    ensures req.objectId.Ok? && req.body.Err? ==>
      r == PutDone(Reply(lib, w, NewInvalidInput("failed read body", req.body.error)))
    ensures req.objectId.Ok? && req.body.Ok? && lib.validate(req.body.value).Some? ==>
      r == PutDone(Reply(lib, w, NewInvalidInput("failed check body on json", lib.validate(req.body.value).value)))
  {
    match req.objectId
    case Err(e) => PutDone(Reply(lib, w, NewInvalidInput("failed get object id", e)))
    case Ok(id) =>
      match req.body
      case Err(e) => PutDone(Reply(lib, w, NewInvalidInput("failed read body", e)))
      case Ok(body) =>
        match lib.validate(body)
        case Some(e) => PutDone(Reply(lib, w, NewInvalidInput("failed check body on json", e)))
        case None => PutSave(Item(id, body, Duration(lib, req.expires)))
  }

  /** `AddObject` after `SaveObject` returned `(id, err)`. */
  function AddObjectFinish(lib: Library, w: Writer, id: int, err: Option<Error>): (r: Writer)
    ensures err.Some? ==>
      && r == Reply(lib, w, NewInternalError("failed save object", ErrorText(err.value)))
      && r.statuses == w.statuses + [500]
    ensures err.None? && id == 0 ==> r.statuses == w.statuses + [204] && r.body == w.body && r.header == w.header
    ensures err.None? && id != 0 ==> r.statuses == w.statuses + [200] && r.body == w.body && r.header == w.header
  {
    match err
    case Some(e) => Reply(lib, w, NewInternalError("failed save object", ErrorText(e)))
    case None => if id == 0 then WriteHeader(w, 204) else WriteHeader(w, 200)
  }

  /** `Object` up to the store call. */
  function ObjectStart(lib: Library, objectId: Result<int, string>, w: Writer): (r: GetStep)
    ensures r.GetLookup? <==> objectId.Ok?
    ensures r.GetLookup? ==> r.id == objectId.value
    ensures objectId.Err? ==>
      && r == GetDone(Reply(lib, w, NewInvalidInput("failed get object id", objectId.error)))
      && r.w.statuses == w.statuses + [400]
  {
    match objectId
    case Err(e) => GetDone(Reply(lib, w, NewInvalidInput("failed get object id", e)))
    case Ok(id) => GetLookup(id)
  }

  /** `Object` after `GetObject` returned `(item, err)`. */
  function ObjectFinish(lib: Library, w: Writer, item: Item, err: Option<Error>): (r: Writer)
    ensures err == Some(NotFound) ==>
      && r.statuses == w.statuses + [404]
      && r.body == w.body + lib.marshal(ErrNotFound, "failed get object", "")
    ensures err.Some? && err != Some(NotFound) ==>
      && r.statuses == w.statuses + [500]
      && r.body == w.body + lib.marshal(ErrAppCode, "failed get object", ErrorText(err.value))
    // success: 200 and the stored body byte for byte, as JSON
    ensures err.None? ==>
      && r.statuses == w.statuses + [200]
      && r.body == w.body + item.body
      && (Get(w.header, ContentType) == "" ==> Get(r.header, ContentType) == Responder.JsonContentType)
  {
    match err
    case Some(NotFound) => Reply(lib, w, NewNotFoundError("failed get object"))
    case Some(e) => Reply(lib, w, NewInternalError("failed get object", ErrorText(e)))
    case None => Responder.JSON(w, Responder.Model(ItemJSON(item), Some(ItemStatusCode(item))))
  }

  // ------------------------------------------------------- against the real store

  /** A PUT served with the in-memory store. */
  function Put(st: Storage.Store, lib: Library, req: PutRequest, w: Writer): (Storage.Store, Writer)
    requires st.s.Some?
  {
    match AddObjectStart(lib, req, w)
    case PutDone(w') => (st, w')
    case PutSave(item) =>
      var saved := Storage.SaveObject(st, item);
      (saved.store, AddObjectFinish(lib, w, saved.id, saved.err))
  }

  /** A GET served with the in-memory store. */
  function Fetch(st: Storage.Store, lib: Library, objectId: Result<int, string>, w: Writer): Writer
  {
    match ObjectStart(lib, objectId, w)
    case GetDone(w') => w'
    case GetLookup(id) =>
      var got := Storage.GetObject(st, id);
      ObjectFinish(lib, w, got.item, got.err)
  }

  /** A PUT that first passes the `ApplicationType` middleware: a request it
      rejects never reaches `AddObject`. */
  function GuardedPut(st: Storage.Store, lib: Library, gate: AppType.Request, req: PutRequest, w: Writer): (Storage.Store, Writer)
    requires st.s.Some?
  {
    match AppType.ApplicationType(gate, w)
    case Reject(w') => (st, w')
    case Forward => Put(st, lib, req, w)
  }

  /** A request the store accepts. */
  ghost predicate Acceptable(lib: Library, req: PutRequest)
  {
    req.objectId.Ok? && req.body.Ok? && lib.validate(req.body.value).None?
  }

  /** PUT of a new non-zero key: 200, and the object is stored. */
  lemma PutNewKey(st: Storage.Store, lib: Library, req: PutRequest, w: Writer)
    requires st.s.Some? && Acceptable(lib, req)
    requires req.objectId.value !in Storage.Objects(st) && req.objectId.value != 0
    ensures Put(st, lib, req, w).1.statuses == w.statuses + [200]
    ensures Storage.Objects(Put(st, lib, req, w).0) ==
      Storage.Objects(st)[req.objectId.value := Item(req.objectId.value, req.body.value, Duration(lib, req.expires))]
  {
  }

  /** PUT of a key already stored: 204 "updated", yet the store is left exactly as
      it was and the new body is dropped. */
  lemma PutExistingKey(st: Storage.Store, lib: Library, req: PutRequest, w: Writer)
    requires st.s.Some? && Acceptable(lib, req)
    requires req.objectId.value in Storage.Objects(st)
    ensures Put(st, lib, req, w).1.statuses == w.statuses + [204]
    ensures Put(st, lib, req, w).0 == st
  {
  }

  /** PUT of key 0 on a store without it: the object is created, but the answer is
      the 204 of an update, because `SaveObject` returns the key itself, 0. */
  lemma PutFreshZeroKey(st: Storage.Store, lib: Library, req: PutRequest, w: Writer)
    requires st.s.Some? && Acceptable(lib, req)
    requires req.objectId.value == 0 && 0 !in Storage.Objects(st)
    ensures Put(st, lib, req, w).1.statuses == w.statuses + [204]
    ensures 0 in Storage.Objects(Put(st, lib, req, w).0)
  {
  }

  /** A rejected PUT leaves the store alone. */
  lemma PutRejectedLeavesStore(st: Storage.Store, lib: Library, req: PutRequest, w: Writer)
    requires st.s.Some? && !Acceptable(lib, req)
    ensures Put(st, lib, req, w).0 == st
    ensures Put(st, lib, req, w).1.statuses == w.statuses + [400]
  {
  }

  /** PUT then GET of a new key returns the PUT body byte for byte with 200. */
  lemma PutThenFetch(st: Storage.Store, lib: Library, req: PutRequest, w: Writer, w': Writer)
    requires st.s.Some? && Acceptable(lib, req)
    requires req.objectId.value !in Storage.Objects(st)
    ensures Fetch(Put(st, lib, req, w).0, lib, req.objectId, w').statuses == w'.statuses + [200]
    ensures Fetch(Put(st, lib, req, w).0, lib, req.objectId, w').body == w'.body + req.body.value
  {
  }

  /** GET of a key never stored: 404 NOT_FOUND. */
  lemma FetchAbsent(st: Storage.Store, lib: Library, id: int, w: Writer)
    requires id !in Storage.Objects(st)
    ensures Fetch(st, lib, Ok(id), w).statuses == w.statuses + [404]
    ensures Fetch(st, lib, Ok(id), w).body == w.body + lib.marshal(ErrNotFound, "failed get object", "")
  {
  }

  /** Behind the middleware, a non-GET request whose Content-Type is not exactly
      "application/json" is answered 400 with the middleware's message, and the
      store is left as it was whatever the request holds; every other request is
      served by `AddObject` unchanged. */
  lemma UnknownContentTypeNeverReachesStore(st: Storage.Store, lib: Library, gate: AppType.Request, req: PutRequest, w: Writer)
    requires st.s.Some?
    ensures gate.verb != "GET" && Get(gate.header, ContentType) != AppType.JsonType ==>
      && GuardedPut(st, lib, gate, req, w).0 == st
      && GuardedPut(st, lib, gate, req, w).1.statuses == w.statuses + [400]
      && (w.statuses == [] ==> Code(GuardedPut(st, lib, gate, req, w).1) == 400)
      && GuardedPut(st, lib, gate, req, w).1.body == w.body + Text(AppType.RejectMessage + "\n")
    ensures gate.verb == "GET" || Get(gate.header, ContentType) == AppType.JsonType ==>
      GuardedPut(st, lib, gate, req, w) == Put(st, lib, req, w)
  {
  }
}

=== FILE: apptype.dfy ===
/** The `ApplicationType` middleware of `internal/http/handler/middlewares/apptype`:
    only GET requests and requests declaring a JSON body reach the next handler. */
module AppType {
  import opened Models
  import opened Http

  /** What the middleware looks at: the method (the request's `Method`) and the request headers. */
  datatype Request = Request(verb: string, header: Header)

  /** Exactly one of: hand the request, and the writer untouched, to the next
      handler; or answer it here with the writer given. */
  datatype Gate = Forward | Reject(w: Writer)

  const JsonType := "application/json"
  const RejectMessage := "unknown Content-Type"

  /** The middleware applied to one request. */
  function ApplicationType(req: Request, w: Writer): (r: Gate)
    ensures req.verb == "GET" ==> r == Forward
    ensures r == Forward <==> req.verb == "GET" || Get(req.header, ContentType) == JsonType
    ensures r.Reject? ==>
      && r.w.statuses == w.statuses + [400]
      && r.w.body == w.body + Text(RejectMessage + "\n")
      && Get(r.w.header, ContentType) == "text/plain; charset=utf-8"
  {
    if req.verb == "GET" then Forward
    else if Get(req.header, ContentType) != JsonType then Reject(HttpError(w, RejectMessage, 400))
    else Forward
  }

  /** The media type with a charset parameter is not the exact string compared
      against, so a PUT declaring it is refused, as is a PUT without the header. */
  lemma CharsetAndMissingTypeRejected(w: Writer)
    ensures ApplicationType(Request("PUT", map[ContentType := "application/json; charset=utf-8"]), w).Reject?
    ensures ApplicationType(Request("PUT", map[]), w).Reject?
    ensures ApplicationType(Request("PUT", map[ContentType := JsonType]), w) == Forward
  {
  }
}

=== FILE: backend.dfy ===
/** The persistence backend as the store sees it: the `repo` interface of
    `internal/storage/storage.go` (`Insert`, `ReadAll`, `DeleteAll`).

    The backend is abstract. Its state is the sequence of rows it holds plus the
    trace of every call the store has made on it; whether a call fails is decided by
    a fault oracle, so that every failure pattern a real backend can show is a
    choice of `Faults`. */
module Backend {
  import opened Wrappers
  import opened Models

  /** One call the store makes on its backend. */
  datatype Call = ReadAllCall | DeleteAllCall | InsertCall(item: Item)

  /** The persisted rows, in insertion order, and the calls received so far. */
  datatype Repo = Repo(rows: seq<Item>, trace: seq<Call>)

  /** Injected failures: the error `ReadAll` and `DeleteAll` report (None: success),
      and for `Insert`, the error it reports given the rows already held and the
      item (a primary-key conflict is one such oracle). */
  datatype Faults = Faults(
    readAll: Option<Error>,
    deleteAll: Option<Error>,
    insert: (seq<Item>, Item) -> Option<Error>)

  /** A backend that never fails. */
  ghost predicate Reliable(f: Faults)
  {
    && f.readAll == None
    && f.deleteAll == None
    && forall rows, x :: f.insert(rows, x) == None
  }

  /** `ReadAll`: every persisted row, or the injected error. */
  function ReadAll(r: Repo, f: Faults): (Result<seq<Item>, Error>, Repo)
  {
    var r' := r.(trace := r.trace + [ReadAllCall]);
    match f.readAll
    case None => (Ok(r.rows), r')
    case Some(e) => (Err(e), r')
  }

  /** `DeleteAll`: all rows or none are removed. */
  function DeleteAll(r: Repo, f: Faults): (Option<Error>, Repo)
  {
    var r' := r.(trace := r.trace + [DeleteAllCall]);
    if f.deleteAll.None? then (None, r'.(rows := [])) else (f.deleteAll, r')
  }

  /** `Insert`: one row is appended, unless the oracle makes this insert fail. */
  function Insert(r: Repo, f: Faults, item: Item): (Option<Error>, Repo)
  {
    var r' := r.(trace := r.trace + [InsertCall(item)]);
    var e := f.insert(r.rows, item);
    if e.None? then (None, r'.(rows := r.rows + [item])) else (e, r')
  }

  /** The calls that inserting `items` one after another makes. */
  function InsertCalls(items: seq<Item>): seq<Call>
  {
    seq(|items|, i requires 0 <= i < |items| => InsertCall(items[i]))
  }
}

=== FILE: handlererrors.dfy ===
/** The error values of `internal/http/handler/handlererrors`. */
module HandlerErrors {
  import opened Wrappers
  import opened Models
  import Responder
  import Http

  const ErrAppCode := "ERR_APP_CODE"
  const ErrInvalidInput := "ERR_INVALID_INPUT"
  const ErrNotFound := "NOT_FOUND"

  /** A `HandlerError`; `httpStatusCode` is unexported and so not part of its JSON. */
  datatype HandlerError = HandlerError(code: string, title: string, detail: string, httpStatusCode: int)

  /** `StatusCode()`. */
  function StatusCode(he: HandlerError): int
  {
    he.httpStatusCode
  }

  /** `NewNotFoundError(title)`. */
  function NewNotFoundError(title: string): (e: HandlerError)
    ensures e.code == ErrNotFound && e.title == title && e.detail == ""
    ensures StatusCode(e) == 404
  {
    HandlerError(ErrNotFound, title, "", 404)
  }

  /** `NewInvalidInput(title, detail)`. */
  function NewInvalidInput(title: string, detail: string): (e: HandlerError)
    ensures e.code == ErrInvalidInput && e.title == title && e.detail == detail
    ensures StatusCode(e) == 400
  {
    HandlerError(ErrInvalidInput, title, detail, 400)
  }

  /** `NewInternalError(title, detail)`. */
  function NewInternalError(title: string, detail: string): (e: HandlerError)
    ensures e.code == ErrAppCode && e.title == title && e.detail == detail
    ensures StatusCode(e) == 500
  {
    HandlerError(ErrAppCode, title, detail, 500)
  }

  /** `Error()`: the code, the title and the detail, each pair separated by ": ". */
  function ErrorString(he: HandlerError): (s: string)
    ensures |s| == |he.code| + |he.title| + |he.detail| + 4
    ensures s[..|he.code|] == he.code
    ensures s[|he.code|..|he.code| + 2] == ": "
    ensures s[|he.code| + 2..|he.code| + 2 + |he.title|] == he.title
    ensures s[|he.code| + 2 + |he.title|..|s| - |he.detail|] == ": "
    ensures s[|s| - |he.detail|..] == he.detail
  {
    he.code + ": " + he.title + ": " + he.detail
  }

  /** The texts of the three kinds of error never coincide, whatever their titles
      and details: each starts with its own code. */
  lemma ErrorStringsDiffer(t1: string, t2: string, d2: string, t3: string, d3: string)
    ensures ErrorString(NewNotFoundError(t1)) != ErrorString(NewInvalidInput(t2, d2))
    ensures ErrorString(NewNotFoundError(t1)) != ErrorString(NewInternalError(t3, d3))
    ensures ErrorString(NewInvalidInput(t2, d2)) != ErrorString(NewInternalError(t3, d3))
  {
    var a := ErrorString(NewNotFoundError(t1));
    var b := ErrorString(NewInvalidInput(t2, d2));
    var c := ErrorString(NewInternalError(t3, d3));
    assert a[0] == ErrNotFound[0] by { assert a[..|ErrNotFound|] == ErrNotFound; }
    assert b[0] == ErrInvalidInput[0] && b[4] == ErrInvalidInput[4] by {
      assert b[..|ErrInvalidInput|] == ErrInvalidInput;
    }
    assert c[0] == ErrAppCode[0] && c[4] == ErrAppCode[4] by { assert c[..|ErrAppCode|] == ErrAppCode; }
  }

  /** An error made by one of the three constructors. */
  predicate Constructed(he: HandlerError)
  {
    || he == NewNotFoundError(he.title)
    || he == NewInvalidInput(he.title, he.detail)
    || he == NewInternalError(he.title, he.detail)
  }

  /** `StatusCode` of a constructed error follows from its code alone, and is
      always one `WriteHeader` accepts. */
  lemma StatusFollowsCode(he: HandlerError)
    requires Constructed(he)
    ensures StatusCode(he) == 404 <==> he.code == ErrNotFound
    ensures StatusCode(he) == 400 <==> he.code == ErrInvalidInput
    ensures StatusCode(he) == 500 <==> he.code == ErrAppCode
    ensures Http.ValidCode(StatusCode(he))
  {
  }

  /** `json.Marshal` applied to the exported fields `code`, `title`, `detail`. */
  type Marshal = (string, string, string) -> Bytes

  /** A `HandlerError` as `responder.JSON` sees it: `ToJSON` is `json.Marshal`,
      which cannot fail on three strings, and the error reports its own status. */
  function AsModel(he: HandlerError, marshal: Marshal): (r: Responder.Model)
    ensures r.json.Ok? && r.json.value == marshal(he.code, he.title, he.detail)
    ensures r.statusCode == Some(StatusCode(he))
    ensures Constructed(he) ==> Responder.Writable(r)
  {
    Responder.Model(Ok(marshal(he.code, he.title, he.detail)), Some(StatusCode(he)))
  }

  /** `responder.JSON` of a constructed error: exactly its own status, then its JSON. */
  lemma RespondWithError(he: HandlerError, marshal: Marshal, w: Http.Writer)
    requires Constructed(he)
    ensures Responder.JSON(w, AsModel(he, marshal)).statuses == w.statuses + [StatusCode(he)]
    ensures Responder.JSON(w, AsModel(he, marshal)).body == w.body + marshal(he.code, he.title, he.detail)
  {
  }
}

=== FILE: healthz.dfy ===
/** The probes of `internal/http/handler/healthz`: each asks the store's `Check`
    once and answers from its result. */
module Healthz {
  import opened Wrappers
  import opened Models
  import opened Http
  import Storage
  import Backend

  /** What both probes write, given what `Check()` returned: 200 and no body when
      the store is available, 503 and the error's text otherwise. */
  function Probe(check: Option<Error>, w: Writer): (r: Writer)
    ensures r.header == w.header
    ensures check.None? ==> r.statuses == w.statuses + [200] && r.body == w.body
    ensures check.Some? ==>
      r.statuses == w.statuses + [503] && r.body == w.body + Text(ErrorText(check.value))
  {
    match check
    case Some(e) => Write(WriteHeader(w, 503), Text(ErrorText(e)))
    case None => WriteHeader(w, 200)
  }

  /** `Liveness`: the source's code is the same as that of `Readiness`. */
  function Liveness(check: Option<Error>, w: Writer): Writer
  {
    Probe(check, w)
  }

  /** `Readiness`. */
  function Readiness(check: Option<Error>, w: Writer): Writer
  {
    Probe(check, w)
  }

  /** A store that `NewStore` built is always live, whatever its backend did. */
  lemma ConstructedStoreIsLive(b: Backend.Repo, f: Backend.Faults, w: Writer)
    ensures Liveness(Storage.Check(Storage.NewStore(b, f).store), w).statuses == w.statuses + [200]
  {
  }
}

=== FILE: http.dfy ===
/** The part of `net/http` the handlers use: a response writer recorded as its
    header map, the status codes passed to `WriteHeader` in order, and the body
    bytes written; and the `http.Error` helper. */
module Http {
  import opened Models

  /** Response or request headers, one value per (canonical) name. */
  type Header = map<string, string>

  /** A response writer: headers, every status code written, in order, and the body. */
  datatype Writer = Writer(header: Header, statuses: seq<int>, body: Bytes)

  const ContentType := "Content-Type"

  /** `Header.Get`: the value, or "" when the header is absent. */
  function Get(h: Header, name: string): string
  {
    if name in h then h[name] else ""
  }

  /** A status code `WriteHeader` accepts: net/http panics on any other. */
  predicate ValidCode(code: int)
  {
    100 <= code <= 999
  }

  /** `WriteHeader(code)`. */
  function WriteHeader(w: Writer, code: int): Writer
    requires ValidCode(code)
  {
    w.(statuses := w.statuses + [code])
  }

  /** `Write(data)`: a write before any `WriteHeader` first sends status 200. */
  function Write(w: Writer, data: Bytes): Writer
  {
    w.(statuses := if w.statuses == [] then [200] else w.statuses, body := w.body + data)
  }

  /** The status the client sees: the first one written, 200 if none was. */
  function Code(w: Writer): int
  {
    if w.statuses == [] then 200 else w.statuses[0]
  }

  /** `http.Error(w, msg, code)`: a plain-text reply of `msg` and a newline. */
  function HttpError(w: Writer, msg: string, code: int): Writer
    requires ValidCode(code)
  {
    var h := (w.header - {"Content-Length"})
      [ContentType := "text/plain; charset=utf-8"]
      ["X-Content-Type-Options" := "nosniff"];
    Write(WriteHeader(w.(header := h), code), Text(msg + "\n"))
  }
}

=== FILE: logger.dfy ===
/** The option resolution of `logger.New` in `internal/logger`: level and format
    strings become a zap configuration, or a typed error. Building the logger from
    the configuration belongs to zap and is not modelled. */
module Logger {
  import opened Wrappers

  datatype Level = DebugLevel | InfoLevel | WarnLevel | ErrorLevel

  datatype Format = JsonFormat | TextFormat

  /** `ErrUnsupportedLogLevel` / `ErrUnsupportedLogFormat`, wrapped with the value given. */
  datatype LoggerError = UnsupportedLogLevel(level: string) | UnsupportedLogFormat(format: string)

  /** One character through `unicode.ToLower`, as far as it matters for comparing
      with lower-case ASCII words: A-Z, and the two non-ASCII characters whose
      lower case is ASCII (U+0130 to 'i', the Kelvin sign U+212A to 'k'). Every
      other character is kept; its lower case is not ASCII either. */
  function FoldChar(c: char): char
  {
    if 'A' <= c <= 'Z' then (c as int + 32) as char
    else if c == '\U{0130}' then 'i'
    else if c == '\U{212A}' then 'k'
    else c
  }

  /** `strings.ToLower`, character by character. */
  function ToLower(s: string): (r: string)
    ensures |r| == |s|
    ensures forall i :: 0 <= i < |s| ==> r[i] == FoldChar(s[i])
  {
    seq(|s|, i requires 0 <= i < |s| => FoldChar(s[i]))
  }

  /** Lower-casing twice is lower-casing once. */
  lemma ToLowerIdempotent(s: string)
    ensures ToLower(ToLower(s)) == ToLower(s)
  {
  }

  /** The level switch of `New`. */
  function ResolveLevel(level: string): (r: Result<Level, LoggerError>)
    ensures r == Ok(DebugLevel) <==> ToLower(level) == "debug"
    ensures r == Ok(InfoLevel) <==> ToLower(level) == "info"
    ensures r == Ok(WarnLevel) <==> ToLower(level) == "warn"
    ensures r == Ok(ErrorLevel) <==> ToLower(level) == "error"
    ensures r.Err? ==> r.error == UnsupportedLogLevel(level)
  {
    match ToLower(level)
    case "debug" => Ok(DebugLevel)
    case "info" => Ok(InfoLevel)
    case "warn" => Ok(WarnLevel)
    case "error" => Ok(ErrorLevel)
    case _ => Err(UnsupportedLogLevel(level))
  }

  /** The format switch of `New`. */
  function ResolveFormat(format: string): (r: Result<Format, LoggerError>)
    ensures r == Ok(JsonFormat) <==> ToLower(format) == "json"
    ensures r == Ok(TextFormat) <==> ToLower(format) == "text"
    ensures r.Err? ==> r.error == UnsupportedLogFormat(format)
  {
    match ToLower(format)
    case "json" => Ok(JsonFormat)
    case "text" => Ok(TextFormat)
    case _ => Err(UnsupportedLogFormat(format))
  }

  /** The zap preset a configuration starts from. */
  datatype Preset = Production | Development

  /** The time encoder: RFC 3339 with nanoseconds, or a Go time layout. */
  datatype TimeEncoder = RFC3339Nano | Layout(layout: string)

  /** The level encoder: the preset's own, or lower-case with colour. */
  datatype LevelEncoder = PresetLevelEncoder | LowercaseColor

  /** The fields of `zap.Config` that `New` decides. A key left None keeps the
      preset's default. */
  datatype Config = Config(
    preset: Preset,
    level: Level,
    timeKey: Option<string>,
    messageKey: Option<string>,
    timeEncoder: TimeEncoder,
    levelEncoder: LevelEncoder,
    outputPaths: seq<string>,
    errorOutputPaths: seq<string>,
    development: bool,
    disableStacktrace: bool)

  /** `New` up to `config.Build()`. */
  function New(level: string, format: string, output: string, verbose: bool): (r: Result<Config, LoggerError>)
    // the level is checked first: a bad level is reported even if the format is bad too
    ensures ResolveLevel(level).Err? ==> r == Err(UnsupportedLogLevel(level))
    ensures ResolveLevel(level).Ok? && ResolveFormat(format).Err? ==> r == Err(UnsupportedLogFormat(format))
    ensures r.Ok? <==> ResolveLevel(level).Ok? && ResolveFormat(format).Ok?
    ensures r.Ok? ==>
      && r.value.level == ResolveLevel(level).value
      && r.value.development == verbose
      && r.value.disableStacktrace == !verbose
      && r.value.outputPaths == [output]
      && r.value.errorOutputPaths == [output]
    ensures r.Ok? && ResolveFormat(format) == Ok(JsonFormat) ==>
      && r.value.preset == Production
      && r.value.timeKey == Some("time")
      && r.value.messageKey == Some("message")
      && r.value.timeEncoder == RFC3339Nano
      && r.value.levelEncoder == PresetLevelEncoder
    ensures r.Ok? && ResolveFormat(format) == Ok(TextFormat) ==>
      && r.value.preset == Development
      && r.value.timeKey == None && r.value.messageKey == None
      && r.value.timeEncoder == Layout("15:04:05")
      && r.value.levelEncoder == LowercaseColor
  {
    match ResolveLevel(level)
    case Err(e) => Err(e)
    case Ok(lvl) =>
      match ResolveFormat(format)
      case Err(e) => Err(e)
      case Ok(fmt) =>
        // the preset decides the encoder fields; the rest is set whatever the preset
        var json := fmt == JsonFormat;
        Ok(Config(
          preset := if json then Production else Development,
          level := lvl,
          timeKey := if json then Some("time") else None,
          messageKey := if json then Some("message") else None,
          timeEncoder := if json then RFC3339Nano else Layout("15:04:05"),
          levelEncoder := if json then PresetLevelEncoder else LowercaseColor,
          outputPaths := [output],
          errorOutputPaths := [output],
          development := verbose,
          disableStacktrace := !verbose))
  }

  /** Level and format are matched without regard to case. */
  lemma CaseInsensitive(level: string, format: string, output: string, verbose: bool)
    ensures New(ToLower(level), ToLower(format), output, verbose).Ok? == New(level, format, output, verbose).Ok?
    ensures ResolveLevel(ToLower(level)).Ok? ==> ResolveLevel(ToLower(level)) == ResolveLevel(level)
    ensures ResolveFormat(ToLower(format)).Ok? ==> ResolveFormat(ToLower(format)) == ResolveFormat(format)
  {
    ToLowerIdempotent(level);
    ToLowerIdempotent(format);
  }
}

=== FILE: models.dfy ===
/** The shared datatypes of `internal/models`: the stored item, the error values the
    store and its backend report, and the byte strings bodies are made of. */
module Models {
  import opened Wrappers

  /** One octet of a Go `[]byte`. */
  newtype byte = x: int | 0 <= x < 256

  type Bytes = seq<byte>

  /** A `models.Item`: its integer key, its raw body and the client-supplied
      time-to-live (a `time.Duration`, a count of nanoseconds that nothing acts on). */
  datatype Item = Item(id: int, body: Bytes, expires: int)

  /** The zero value `models.Item{}`. Go's nil body is the empty sequence here. */
  const ZeroItem := Item(0, [], 0)

  /** The errors that cross the store's boundary: `models.ErrNotFound`, the store's
      `errNotAvailable`, and any other error, known only by its text. */
  datatype Error = NotFound | NotAvailable | Failure(message: string)

  /** `err.Error()`. */
  function ErrorText(e: Error): string
  {
    match e
    case NotFound => "object not found"
    case NotAvailable => "store is not available"
    case Failure(m) => m
  }

  /** `Item.ToJSON`: the body is already JSON and is handed over as it is. */
  function ItemJSON(i: Item): Result<Bytes, string>
  {
    Ok(i.body)
  }

  /** `Item.StatusCode`: `http.StatusOK`. */
  function ItemStatusCode(i: Item): int
  {
    200
  }

  /** The UTF-8 encoding of one character, as Go's `[]byte(string)` produces it. */
  function EncodeChar(c: char): (r: Bytes)
    ensures 1 <= |r| <= 4
    ensures c as int < 0x80 <==> |r| == 1
    ensures c as int < 0x80 ==> r[0] as int == c as int
  {
    var n := c as int;
    if n < 0x80 then
      [n as byte]
    else if n < 0x800 then
      [(0xC0 + n / 0x40) as byte, (0x80 + n % 0x40) as byte]
    else if n < 0x10000 then
      [(0xE0 + n / 0x1000) as byte, (0x80 + (n / 0x40) % 0x40) as byte, (0x80 + n % 0x40) as byte]
    else
      [(0xF0 + n / 0x40000) as byte, (0x80 + (n / 0x1000) % 0x40) as byte,
       (0x80 + (n / 0x40) % 0x40) as byte, (0x80 + n % 0x40) as byte]
  }

  /** A string consisting of ASCII characters only. */
  predicate IsAscii(s: string)
  {
    forall i :: 0 <= i < |s| ==> s[i] as int < 0x80
  }

  /** `[]byte(s)`: the UTF-8 encoding of a string. */
  function Text(s: string): (r: Bytes)
    ensures |s| <= |r| <= 4 * |s|
    ensures IsAscii(s) ==> |r| == |s| && forall i :: 0 <= i < |s| ==> r[i] as int == s[i] as int
  {
    if s == [] then [] else EncodeChar(s[0]) + Text(s[1..])
  }

  /** `[]byte(s)` for the constant strings the handlers write, which are ASCII:
      one byte per character. It exists beside `Text` because the verifier
      unfolds the recursive `Text` on a literal string character by character,
      which is too costly for the long response constants; this one is a
      single comprehension. The reduction modulo 256 never acts on ASCII. */
  function Ascii(s: string): Bytes
  {
    seq(|s|, i requires 0 <= i < |s| => (s[i] as int % 0x100) as byte)
  }

  /** On ASCII text the two conversions agree. */
  lemma AsciiIsText(s: string)
    requires IsAscii(s)
    ensures Ascii(s) == Text(s)
  {
  }
}

=== FILE: responder.dfy ===
/** `responder.JSON` of `internal/http/handler/responder`: writes a model as JSON. */
module Responder {
  import opened Wrappers
  import opened Models
  import opened Http

  /** What `JSON` learns of its model: the outcome of `ToJSON`, and the result of
      `StatusCode` when the model implements it (None when it does not). */
  datatype Model = Model(json: Result<Bytes, string>, statusCode: Option<int>)

  const JsonContentType := "application/json; charset=utf-8"

  /** The body written when `ToJSON` fails, quotes included. */
  const FallbackBody := "\"service response cannot be converted into json format\""

  /** `FallbackBody` as bytes. */
  const Fallback: Bytes := Ascii(FallbackBody)

  /** The first step of `JSON`: a missing Content-Type becomes JSON. */
  function DefaultContentType(w: Writer): (r: Writer)
    ensures Get(w.header, ContentType) == "" ==> Get(r.header, ContentType) == JsonContentType
    ensures Get(w.header, ContentType) != "" ==> r == w
    ensures r.header - {ContentType} == w.header - {ContentType}
    ensures r.statuses == w.statuses && r.body == w.body
  {
    if Get(w.header, ContentType) == "" then w.(header := w.header[ContentType := JsonContentType]) else w
  }

  /** A model `JSON` can write without a panic: when it encodes and has a non-zero
      status code of its own, `WriteHeader` accepts that code. */
  predicate Writable(model: Model)
  {
    model.json.Ok? && model.statusCode.Some? && model.statusCode.value != 0 ==>
      ValidCode(model.statusCode.value)
  }

  /** The status `JSON` writes for an encoded model: its own non-zero code, else 200. */
  function Status(model: Model): (code: int)
    ensures model.statusCode.Some? && model.statusCode.value != 0 ==> code == model.statusCode.value
    ensures model.statusCode.None? || model.statusCode == Some(0) ==> code == 200
  {
    if model.statusCode.Some? && model.statusCode.value != 0 then model.statusCode.value else 200
  }

  /** `JSON(w, model)`. */
  function JSON(w: Writer, model: Model): (r: Writer)
    requires Writable(model)
    // a missing Content-Type defaults to JSON; no other header is touched
    ensures Get(w.header, ContentType) == "" ==> Get(r.header, ContentType) == JsonContentType
    ensures r.header - {ContentType} == w.header - {ContentType}
    // encode failure: 500, the fixed fallback body, and JSON forced
    ensures model.json.Err? ==>
      && Get(r.header, ContentType) == JsonContentType
      && r.statuses == w.statuses + [500]
      && r.body == w.body + Fallback
    // success: a Content-Type already set stays, the encoding is written as is,
    // after exactly one status
    ensures model.json.Ok? && Get(w.header, ContentType) != "" ==>
      Get(r.header, ContentType) == Get(w.header, ContentType)
    ensures model.json.Ok? ==> r.body == w.body + model.json.value
    ensures model.json.Ok? && model.statusCode.Some? && model.statusCode.value != 0 ==>
      r.statuses == w.statuses + [model.statusCode.value]
    ensures model.json.Ok? && (model.statusCode.None? || model.statusCode == Some(0)) ==>
      r.statuses == w.statuses + [200]
  {
    var w1 := DefaultContentType(w);
    match model.json
    case Err(_) =>
      Write(WriteHeader(w1.(header := w1.header[ContentType := JsonContentType]), 500), Fallback)
    case Ok(content) =>
      Write(WriteHeader(w1, Status(model)), content)
  }
}

=== FILE: storage.dfy ===
/** The in-memory object store of `internal/storage/storage.go`.

    Every operation is atomic here: the mutex that serialises them in the source is
    left out, and each operation is a function from the store's state (and, at the
    two synchronisation points, the backend's state) to its result. */
module Storage {
  import opened Wrappers
  import opened Models
  import opened Backend

  /** `Store.s`: None is Go's nil map, which `NewStore` never leaves behind. */
  datatype Store = Store(s: Option<map<int, Item>>)

  /** The objects held; a nil map reads as an empty one, as in Go. */
  function Objects(st: Store): map<int, Item>
  {
    if st.s.Some? then st.s.value else map[]
  }

  /** Every object is stored under its own id. */
  ghost predicate WellKeyed(m: map<int, Item>)
  {
    forall k :: k in m ==> m[k].id == k
  }

  /** The ids of a sequence of items. */
  function Ids(items: seq<Item>): set<int>
  {
    set x | x in items :: x.id
  }

  /** No later item of `items` has the id of `items[j]`. */
  ghost predicate IsLastOfId(items: seq<Item>, j: int)
    requires 0 <= j < |items|
  {
    forall j' :: j < j' < |items| ==> items[j'].id != items[j].id
  }

  /** No earlier item of `items` has the id of `items[j]`. */
  ghost predicate IsFirstOfId(items: seq<Item>, j: int)
    requires 0 <= j < |items|
  {
    forall j' :: 0 <= j' < j ==> items[j'].id != items[j].id
  }

  // ---------------------------------------------------------------- SaveObject

  /** What `SaveObject` returns, with the store it leaves. */
  datatype Saved = Saved(store: Store, id: int, err: Option<Error>)

  /** `SaveObject`: an absent key is inserted and its id returned; a present key
      yields 0 and leaves the store as it was. The old item is kept: nothing is
      overwritten. Writing into a nil map panics in Go, hence the precondition. */
  function SaveObject(st: Store, item: Item): (r: Saved)
    requires st.s.Some?
    ensures r.err == None
    ensures r.store.s.Some?
    ensures r.id == 0 <==> item.id in Objects(st) || item.id == 0
    ensures item.id in Objects(st) ==> r.store == st
    ensures item.id !in Objects(st) ==>
      && r.id == item.id
      && Objects(r.store) == Objects(st)[item.id := item]
      && |Objects(r.store)| == |Objects(st)| + 1
    ensures forall k :: k in Objects(st) ==> k in Objects(r.store) && Objects(r.store)[k] == Objects(st)[k]
    ensures WellKeyed(Objects(st)) ==> WellKeyed(Objects(r.store))
  {
    var m := st.s.value;
    if item.id in m then
      Saved(st, 0, None)
    else
      Saved(Store(Some(m[item.id := item])), item.id, None)
  }

  // ----------------------------------------------------------------- GetObject

  /** What `GetObject` returns. The store is not an output: reading never changes it. */
  datatype Got = Got(item: Item, err: Option<Error>)

  /** `GetObject`: the stored item, or the zero item and `ErrNotFound`. */
  function GetObject(st: Store, id: int): (r: Got)
    ensures id in Objects(st) ==> r.item == Objects(st)[id] && r.err == None
    ensures id !in Objects(st) ==> r.item == ZeroItem && r.err == Some(NotFound)
  {
    if id in Objects(st) then Got(Objects(st)[id], None) else Got(ZeroItem, Some(NotFound))
  }

  // --------------------------------------------------------------------- Check

  /** `Check`: `errNotAvailable` exactly when the map is nil. */
  function Check(st: Store): (r: Option<Error>)
    ensures r == None <==> st.s.Some?
    ensures r != None ==> r == Some(NotAvailable)
  {
    if st.s.None? then Some(NotAvailable) else None
  }

  // ------------------------------------------------------------------ loadItems

  /** The loop of `loadItems`: each item read is put under its id, in order. */
  function Apply(m: map<int, Item>, items: seq<Item>): map<int, Item>
    decreases |items|
  {
    if items == [] then m else Apply(m[items[0].id := items[0]], items[1..])
  }

  /** The ids of a non-empty sequence: those of its head and of its tail. */
  lemma IdsCons(items: seq<Item>)
    requires items != []
    ensures Ids(items) == {items[0].id} + Ids(items[1..])
  {
    assert items == [items[0]] + items[1..];
  }

  /** Applying `items` adds exactly their ids; for an id that occurs several
      times the last occurrence wins; other entries are untouched. */
  lemma {:induction false} ApplyLaterWins(m: map<int, Item>, items: seq<Item>)
    ensures Apply(m, items).Keys == m.Keys + Ids(items)
    ensures forall j :: 0 <= j < |items| && IsLastOfId(items, j) ==>
      Apply(m, items)[items[j].id] == items[j]
    ensures forall k :: k in m && k !in Ids(items) ==> Apply(m, items)[k] == m[k]
    ensures WellKeyed(m) ==> WellKeyed(Apply(m, items))
    decreases |items|
  {
    if items != [] {
      var x, rest := items[0], items[1..];
      var m' := m[x.id := x];
      assert Apply(m, items) == Apply(m', rest);
      ApplyLaterWins(m', rest);
      IdsCons(items);
      forall j | 0 <= j < |items| && IsLastOfId(items, j)
        ensures Apply(m, items)[items[j].id] == items[j]
      {
        if j == 0 {
          forall i | 0 <= i < |rest| ensures rest[i].id != x.id {
            assert rest[i] == items[i + 1];
          }
          assert x.id !in Ids(rest);
        } else {
          assert items[j] == rest[j - 1];
          assert IsLastOfId(rest, j - 1) by {
            forall j' | j - 1 < j' < |rest| ensures rest[j'].id != rest[j - 1].id {
              assert rest[j'] == items[j' + 1];
            }
          }
        }
      }
    }
  }

  /** `loadItems`: one `ReadAll`; on any error (`ErrNotFound` or another) the map
      stays empty and nothing escapes but a log line; otherwise the rows are applied. */
  function LoadItems(b: Repo, f: Faults): (r: (map<int, Item>, Repo))
    ensures r.1 == b.(trace := b.trace + [ReadAllCall])
    ensures f.readAll.Some? ==> r.0 == map[]
    ensures f.readAll.None? ==> r.0.Keys == Ids(b.rows)
    ensures f.readAll.None? ==> forall j :: 0 <= j < |b.rows| && IsLastOfId(b.rows, j) ==>
      r.0[b.rows[j].id] == b.rows[j]
    ensures WellKeyed(r.0)
  {
    var read := ReadAll(b, f);
    match read.0
    case Err(NotFound) => (map[], read.1)
    case Err(_) => (map[], read.1)
    case Ok(items) =>
      ApplyLaterWins(map[], items);
      (Apply(map[], items), read.1)
  }

  /** The store and the backend after construction. */
  datatype Opened = Opened(store: Store, repo: Repo)

  /** `NewStore`: an initialised, empty map, then `loadItems`. */
  function NewStore(b: Repo, f: Faults): (r: Opened)
    ensures Check(r.store) == None
    ensures r.repo == b.(trace := b.trace + [ReadAllCall])
    ensures f.readAll.Some? ==> Objects(r.store) == map[]
    ensures f.readAll.None? ==> Objects(r.store).Keys == Ids(b.rows)
    ensures WellKeyed(Objects(r.store))
  {
    var loaded := LoadItems(b, f);
    Opened(Store(Some(loaded.0)), loaded.1)
  }

  // ------------------------------------------------------------- saveItems/Stop

  /** The elements of `s` are pairwise distinct. */
  ghost predicate NoDups<T>(s: seq<T>)
  {
    forall i, j :: 0 <= i < j < |s| ==> s[i] != s[j]
  }

  /** `order` lists every key of `m` exactly once: one iteration order of `maps.Values`. */
  ghost predicate Enumerates(order: seq<int>, m: map<int, Item>)
  {
    && NoDups(order)
    && (forall i :: 0 <= i < |order| ==> order[i] in m)
    && (forall k :: k in m ==> k in order)
  }

  /** `maps.Values(s.s)`, listed in the iteration order `order`. */
  function Snapshot(m: map<int, Item>, order: seq<int>): seq<Item>
    requires forall i :: 0 <= i < |order| ==> order[i] in m
  {
    seq(|order|, i requires 0 <= i < |order| => m[order[i]])
  }

  /** The insert loop of `saveItems`: every item is attempted, and a failed insert
      is logged and skipped, never stopping the loop. */
  function InsertEach(r: Repo, f: Faults, items: seq<Item>): (r': Repo)
    ensures r'.trace == r.trace + InsertCalls(items)
    ensures |r.rows| <= |r'.rows| <= |r.rows| + |items|
    decreases |items|
  {
    if items == [] then r
    else
      var mid := Insert(r, f, items[0]).1;
      assert InsertCalls(items) == [InsertCall(items[0])] + InsertCalls(items[1..]);
      InsertEach(mid, f, items[1..])
  }

  /** The insert loop only appends: the rows held before stay in front, and every
      row it adds is one of the items. */
  lemma {:induction false} InsertEachAppends(r: Repo, f: Faults, items: seq<Item>)
    ensures InsertEach(r, f, items).rows[..|r.rows|] == r.rows
    ensures forall i :: |r.rows| <= i < |InsertEach(r, f, items).rows| ==> InsertEach(r, f, items).rows[i] in items
    decreases |items|
  {
    if items != [] {
      var mid := Insert(r, f, items[0]).1;
      var r' := InsertEach(mid, f, items[1..]);
      assert InsertEach(r, f, items) == r';
      InsertEachAppends(mid, f, items[1..]);
      assert mid.rows[..|r.rows|] == r.rows;
      assert r'.rows[..|r.rows|] == r'.rows[..|mid.rows|][..|r.rows|];
      forall i | |r.rows| <= i < |r'.rows| ensures r'.rows[i] in items {
        if i < |mid.rows| {
          assert r'.rows[i] == r'.rows[..|mid.rows|][i] == mid.rows[i] == items[0];
        } else {
          assert r'.rows[i] in items[1..];
        }
      }
    }
  }

  /** With no failing insert, exactly the items are appended, in order. */
  lemma {:induction false} InsertEachReliable(r: Repo, f: Faults, items: seq<Item>)
    ensures (forall rows, x :: f.insert(rows, x) == None) ==> InsertEach(r, f, items).rows == r.rows + items
    decreases |items|
  {
    if items != [] && forall rows, x :: f.insert(rows, x) == None {
      var mid := Insert(r, f, items[0]).1;
      assert mid.rows == r.rows + [items[0]];
      InsertEachReliable(mid, f, items[1..]);
      assert items == [items[0]] + items[1..];
    }
  }

  /** Partial-failure isolation, the other way round: an item whose insert never
      fails is persisted by the insert loop, whatever the other inserts do. */
  lemma {:induction false} ReliableInsertPersists(r: Repo, f: Faults, items: seq<Item>, x: Item)
    requires x in items && forall rows :: f.insert(rows, x) == None
    ensures x in InsertEach(r, f, items).rows
    decreases |items|
  {
    var mid := Insert(r, f, items[0]).1;
    var r' := InsertEach(mid, f, items[1..]);
    assert InsertEach(r, f, items) == r';
    if x == items[0] {
      assert mid.rows[|mid.rows| - 1] == x;
      InsertEachAppends(mid, f, items[1..]);
      assert r'.rows[..|mid.rows|] == mid.rows;
      assert r'.rows[|mid.rows| - 1] == x;
    } else {
      assert x in items[1..] by {
        var i :| 0 <= i < |items| && items[i] == x;
        assert i != 0 && items[1..][i - 1] == x;
      }
      ReliableInsertPersists(mid, f, items[1..], x);
    }
  }

  /** `Stop`, that is `saveItems`: nothing at all on an empty map; otherwise
      `DeleteAll`, and only if it succeeds one `Insert` per stored item. The store
      itself is not an output: the snapshot leaves the map as it was. */
  function Stop(st: Store, b: Repo, f: Faults, order: seq<int>): (r: Repo)
    requires Enumerates(order, Objects(st))
    ensures |Objects(st)| == 0 ==> r == b
    ensures |Objects(st)| != 0 && f.deleteAll.Some? ==>
      r == b.(trace := b.trace + [DeleteAllCall])
    ensures |Objects(st)| != 0 && f.deleteAll.None? ==>
      && r.trace == b.trace + [DeleteAllCall] + InsertCalls(Snapshot(Objects(st), order))
      && (forall i :: 0 <= i < |r.rows| ==> r.rows[i] in Snapshot(Objects(st), order))
      && ((forall rows, x :: f.insert(rows, x) == None) ==> r.rows == Snapshot(Objects(st), order))
  {
    var m := Objects(st);
    if |m| == 0 then b
    else
      var d := DeleteAll(b, f);
      if d.0.Some? then d.1
      else
        InsertEachAppends(d.1, f, Snapshot(m, order));
        InsertEachReliable(d.1, f, Snapshot(m, order));
        InsertEach(d.1, f, Snapshot(m, order))
  }
}

=== FILE: storage_lemmas.dfy ===
/** Laws of the store that relate several calls: sequences of saves, the snapshot
    written on `Stop` and what the next `NewStore` reads back from it. */
module StorageLemmas {
  import opened Wrappers
  import opened Models
  import opened Backend
  import opened Storage

  // ------------------------------------------------------------ save sequences

  /** A run of `SaveObject` calls, one per item, in order. */
  function SaveAll(st: Store, items: seq<Item>): Store
    requires st.s.Some?
    decreases |items|
  {
    if items == [] then st else SaveAll(SaveObject(st, items[0]).store, items[1..])
  }

  /** A run of saves keeps the map initialised, never loses or changes an entry, and
      adds exactly the ids saved. */
  lemma {:induction false} SaveAllKeeps(st: Store, items: seq<Item>)
    requires st.s.Some?
    ensures SaveAll(st, items).s.Some?
    ensures Objects(SaveAll(st, items)).Keys == Objects(st).Keys + Ids(items)
    ensures forall k :: k in Objects(st) ==> Objects(SaveAll(st, items))[k] == Objects(st)[k]
    decreases |items|
  {
    if items != [] {
      var x, rest := items[0], items[1..];
      var st' := SaveObject(st, x).store;
      assert Objects(st').Keys == Objects(st).Keys + {x.id};
      assert forall k :: k in Objects(st) ==> Objects(st')[k] == Objects(st)[k];
      assert SaveAll(st, items) == SaveAll(st', rest);
      SaveAllKeeps(st', rest);
      IdsCons(items);
      assert Objects(SaveAll(st, items)).Keys == Objects(st).Keys + {x.id} + Ids(rest);
    }
  }

  /** In a run of saves the first save of a new key wins: later saves of the same
      key are ignored. */
  lemma {:induction false} SaveAllFirstWins(st: Store, items: seq<Item>)
    requires st.s.Some?
    ensures forall j :: 0 <= j < |items| && items[j].id !in Objects(st) && IsFirstOfId(items, j) ==>
      items[j].id in Objects(SaveAll(st, items)) && Objects(SaveAll(st, items))[items[j].id] == items[j]
    decreases |items|
  {
    if items != [] {
      var x, rest := items[0], items[1..];
      var st' := SaveObject(st, x).store;
      var m, m' := Objects(st), Objects(st');
      var r := SaveAll(st, items);
      assert r == SaveAll(st', rest);
      SaveAllFirstWins(st', rest);
      forall j | 0 <= j < |items| && items[j].id !in m && IsFirstOfId(items, j)
        ensures items[j].id in Objects(r) && Objects(r)[items[j].id] == items[j]
      {
        if j == 0 {
          SaveAllKeeps(st', rest);
          assert m'[x.id] == x;
        } else {
          assert items[j] == rest[j - 1];
          assert items[j].id != x.id by {
            assert items[0] == x;
          }
          assert IsFirstOfId(rest, j - 1) by {
            forall j' | 0 <= j' < j - 1 ensures rest[j'].id != rest[j - 1].id {
              assert rest[j'] == items[j' + 1];
            }
          }
        }
      }
    }
  }

  /** A second save of a key keeps the first body, and reports 0. */
  lemma SecondSaveKeepsFirst(st: Store, a: Item, b: Item)
    requires st.s.Some? && a.id == b.id && a.id !in Objects(st)
    ensures SaveObject(st, a).id == a.id
    ensures SaveObject(SaveObject(st, a).store, b).id == 0
    ensures GetObject(SaveObject(SaveObject(st, a).store, b).store, a.id) == Got(a, None)
  {
  }

  // ------------------------------------------------------------------ snapshot

  /** The distinct elements of a sequence. */
  function Elems<T>(s: seq<T>): set<T>
  {
    set x | x in s
  }

  /** A sequence without repetitions has as many elements as its set of elements. */
  lemma {:induction false} DistinctCard<T>(s: seq<T>)
    requires NoDups(s)
    ensures |Elems(s)| == |s|
  {
    if s != [] {
      var t := s[1..];
      assert NoDups(t) by {
        forall i, j | 0 <= i < j < |t| ensures t[i] != t[j] {
          assert t[i] == s[i + 1] && t[j] == s[j + 1];
        }
      }
      DistinctCard(t);
      assert s == [s[0]] + t;
      assert Elems(s) == {s[0]} + Elems(t);
      forall i | 0 <= i < |t| ensures t[i] != s[0] {
        assert t[i] == s[i + 1];
      }
      assert s[0] !in Elems(t);
    }
  }

  /** A sequence without repetitions holds each of its elements exactly once. */
  lemma {:induction false} DistinctMultiset<T>(s: seq<T>)
    requires NoDups(s)
    ensures multiset(s) == multiset(Elems(s))
  {
    if s != [] {
      var t := s[1..];
      assert NoDups(t) by {
        forall i, j | 0 <= i < j < |t| ensures t[i] != t[j] {
          assert t[i] == s[i + 1] && t[j] == s[j + 1];
        }
      }
      DistinctMultiset(t);
      assert s == [s[0]] + t;
      forall i | 0 <= i < |t| ensures t[i] != s[0] {
        assert t[i] == s[i + 1];
      }
      assert s[0] !in Elems(t);
      assert Elems(s) == {s[0]} + Elems(t);
      assert multiset(Elems(s)) == multiset{s[0]} + multiset(Elems(t));
    }
  }

  /** The snapshot lists each stored item exactly once: as many items as entries,
      every entry's item among them and nothing else; when items sit under their
      own ids, it is a permutation of the map's values. */
  lemma SnapshotExactlyOnce(m: map<int, Item>, order: seq<int>)
    requires Enumerates(order, m)
    ensures |Snapshot(m, order)| == |m|
    ensures forall k :: k in m ==> m[k] in Snapshot(m, order)
    ensures forall x :: x in Snapshot(m, order) ==> x in m.Values
    ensures WellKeyed(m) ==> multiset(Snapshot(m, order)) == multiset(m.Values)
  {
    var snap := Snapshot(m, order);
    assert Elems(order) == m.Keys by {
      forall k | k in m ensures k in Elems(order) {
        var i :| 0 <= i < |order| && order[i] == k;
      }
    }
    DistinctCard(order);
    forall k | k in m ensures m[k] in snap {
      var i :| 0 <= i < |order| && order[i] == k;
      assert snap[i] == m[k];
    }
    if WellKeyed(m) {
      SnapshotPermutes(m, order);
    }
  }

  /** A snapshot of a map whose items sit under their own ids is a permutation of
      the map's values. */
  lemma SnapshotPermutes(m: map<int, Item>, order: seq<int>)
    requires Enumerates(order, m) && WellKeyed(m)
    ensures multiset(Snapshot(m, order)) == multiset(m.Values)
  {
    var snap := Snapshot(m, order);
    assert NoDups(snap) by {
      forall i, j | 0 <= i < j < |snap| ensures snap[i] != snap[j] {
        assert snap[i].id == order[i] && snap[j].id == order[j];
      }
    }
    DistinctMultiset(snap);
    forall k | k in m ensures m[k] in Elems(snap) {
      var i :| 0 <= i < |order| && order[i] == k;
      assert snap[i] == m[k];
    }
    assert Elems(snap) == m.Values;
  }

  /** Partial-failure isolation: once `DeleteAll` succeeds, every stored item gets
      its `Insert` call, whichever inserts fail. */
  lemma StopAttemptsEveryItem(st: Store, b: Repo, f: Faults, order: seq<int>)
    requires Enumerates(order, Objects(st)) && |Objects(st)| != 0 && f.deleteAll == None
    ensures |Stop(st, b, f, order).trace| == |b.trace| + 1 + |Objects(st)|
    ensures Stop(st, b, f, order).trace[|b.trace|] == DeleteAllCall
    ensures forall k :: k in Objects(st) ==>
      InsertCall(Objects(st)[k]) in Stop(st, b, f, order).trace[|b.trace| + 1..]
  {
    var m := Objects(st);
    var calls := Stop(st, b, f, order).trace[|b.trace| + 1..];
    SnapshotExactlyOnce(m, order);
    assert calls == InsertCalls(Snapshot(m, order));
    forall k | k in m ensures InsertCall(m[k]) in calls {
      var i :| 0 <= i < |order| && order[i] == k;
      assert calls[i] == InsertCall(m[k]);
    }
  }

  /** Abort before reinsert: a failed `DeleteAll` leaves the rows as they were and
      no `Insert` reaches the backend. */
  lemma StopDeleteFailureInsertsNothing(st: Store, b: Repo, f: Faults, order: seq<int>)
    requires Enumerates(order, Objects(st)) && |Objects(st)| != 0 && f.deleteAll.Some?
    ensures Stop(st, b, f, order).rows == b.rows
    ensures Stop(st, b, f, order).trace[|b.trace|..] == [DeleteAllCall]
    ensures forall c :: c in Stop(st, b, f, order).trace[|b.trace|..] ==> !c.InsertCall?
  {
  }

  // ------------------------------------------------------------------- restart

  /** The ids in a snapshot of a map whose items sit under their own ids are its keys. */
  lemma SnapshotIds(m: map<int, Item>, order: seq<int>)
    requires Enumerates(order, m) && WellKeyed(m)
    ensures Ids(Snapshot(m, order)) == m.Keys
  {
    var snap := Snapshot(m, order);
    forall k | k in m ensures k in Ids(snap) {
      var i :| 0 <= i < |order| && order[i] == k;
      assert snap[i].id == k;
    }
  }

  /** Each entry of such a snapshot is the only, hence the last, one with its id. */
  lemma SnapshotEntryIsLast(m: map<int, Item>, order: seq<int>, i: int)
    requires Enumerates(order, m) && WellKeyed(m) && 0 <= i < |order|
    ensures IsLastOfId(Snapshot(m, order), i)
  {
    var snap := Snapshot(m, order);
    forall j | i < j < |snap| ensures snap[j].id != snap[i].id {
      assert snap[j].id == order[j] && snap[i].id == order[i];
    }
  }

  /** Loading a snapshot of a map whose items sit under their own ids gives back that map. */
  lemma LoadSnapshot(m: map<int, Item>, order: seq<int>)
    requires Enumerates(order, m) && WellKeyed(m)
    ensures Apply(map[], Snapshot(m, order)) == m
  {
    var snap := Snapshot(m, order);
    var loaded := Apply(map[], snap);
    ApplyLaterWins(map[], snap);
    SnapshotIds(m, order);
    assert loaded.Keys == m.Keys;
    forall k | k in m ensures loaded[k] == m[k] {
      var i :| 0 <= i < |order| && order[i] == k;
      assert snap[i] == m[k] && snap[i].id == k;
      SnapshotEntryIsLast(m, order, i);
      assert loaded[snap[i].id] == snap[i];
    }
  }

  /** With a backend that never fails, what `Stop` writes is what the next
      `NewStore` reads back: the restarted store holds the same objects. */
  lemma RestartRestores(st: Store, b: Repo, f: Faults, order: seq<int>)
    requires Reliable(f)
    requires Enumerates(order, Objects(st)) && |Objects(st)| != 0 && WellKeyed(Objects(st))
    ensures Objects(NewStore(Stop(st, b, f, order), f).store) == Objects(st)
  {
    var saved := Stop(st, b, f, order);
    assert saved.rows == Snapshot(Objects(st), order);
    LoadSnapshot(Objects(st), order);
  }

  /** An empty store writes nothing on `Stop`, so rows the backend already held
      survive: after a failed first read, the next start reloads the old rows, not
      the (empty) objects the store held. */
  lemma EmptyStopKeepsStaleRows(st: Store, b: Repo, f: Faults, order: seq<int>)
    requires Enumerates(order, Objects(st)) && |Objects(st)| == 0 && f.readAll == None
    ensures Stop(st, b, f, order) == b
    ensures Objects(NewStore(Stop(st, b, f, order), f).store).Keys == Ids(b.rows)
  {
  }

  /** After a failed first read, a single save and a stop on a backend that never
      fails, the backend holds exactly the saved item: none of its old rows remain. */
  lemma FailedLoadThenSaveDropsOldRows(b: Repo, first: Faults, later: Faults, x: Item)
    requires first.readAll.Some? && Reliable(later)
    ensures Stop(SaveObject(NewStore(b, first).store, x).store, NewStore(b, first).repo, later, [x.id]).rows == [x]
  {
    var st := SaveObject(NewStore(b, first).store, x).store;
    assert Objects(st) == map[x.id := x];
    assert Snapshot(Objects(st), [x.id]) == [x];
  }

  /** Loading items each of which is stored under its own id gives part of the map. */
  lemma LoadStoredIsSubmap(m: map<int, Item>, rows: seq<Item>)
    requires forall i :: 0 <= i < |rows| ==> rows[i].id in m && m[rows[i].id] == rows[i]
    ensures forall k :: k in Apply(map[], rows) ==> k in m && Apply(map[], rows)[k] == m[k]
  {
    var loaded := Apply(map[], rows);
    ApplyLaterWins(map[], rows);
    forall k | k in loaded ensures k in m && loaded[k] == m[k] {
      var j := LastIndexOf(rows, k);
    }
  }

  /** Whatever the inserts do, the next start reloads only objects the store held,
      each under its own key: failed inserts lose objects, they never alter them.
      And only failed inserts lose objects: one whose insert never fails is
      reloaded. */
  lemma RestartLosesOnlyFailedInserts(st: Store, b: Repo, f: Faults, order: seq<int>)
    requires f.readAll == None && f.deleteAll == None
    requires Enumerates(order, Objects(st)) && |Objects(st)| != 0 && WellKeyed(Objects(st))
    ensures forall k :: k in Objects(NewStore(Stop(st, b, f, order), f).store) ==>
      k in Objects(st) && Objects(NewStore(Stop(st, b, f, order), f).store)[k] == Objects(st)[k]
    ensures forall k :: k in Objects(st) && (forall rows :: f.insert(rows, Objects(st)[k]) == None) ==>
      k in Objects(NewStore(Stop(st, b, f, order), f).store)
  {
    var m := Objects(st);
    var snap := Snapshot(m, order);
    var saved := Stop(st, b, f, order);
    forall i | 0 <= i < |saved.rows| ensures saved.rows[i].id in m && m[saved.rows[i].id] == saved.rows[i] {
      assert saved.rows[i] in snap;
      var p :| 0 <= p < |snap| && snap[p] == saved.rows[i];
      assert snap[p] == m[order[p]];
      assert order[p] in m && m[order[p]].id == order[p];
    }
    LoadStoredIsSubmap(m, saved.rows);
    assert Objects(NewStore(saved, f).store) == Apply(map[], saved.rows);
    forall k | k in m && (forall rows :: f.insert(rows, m[k]) == None)
      ensures k in Objects(NewStore(saved, f).store)
    {
      StoppedReliableItemPersists(st, b, f, order, k);
      assert m[k].id == k;
    }
  }

  /** After a successful `DeleteAll`, a stored item whose insert never fails is
      among the persisted rows. */
  lemma StoppedReliableItemPersists(st: Store, b: Repo, f: Faults, order: seq<int>, k: int)
    requires f.deleteAll == None && Enumerates(order, Objects(st)) && |Objects(st)| != 0
    requires k in Objects(st) && forall rows :: f.insert(rows, Objects(st)[k]) == None
    ensures Objects(st)[k] in Stop(st, b, f, order).rows
  {
    var m := Objects(st);
    var snap := Snapshot(m, order);
    var i :| 0 <= i < |order| && order[i] == k;
    assert snap[i] == m[k];
    ReliableInsertPersists(DeleteAll(b, f).1, f, snap, m[k]);
  }

  /** The index of the last item of `items` with id `k`. */
  function LastIndexOf(items: seq<Item>, k: int): (j: int)
    requires k in Ids(items)
    ensures 0 <= j < |items| && items[j].id == k && IsLastOfId(items, j)
    decreases |items|
  {
    var n := |items| - 1;
    if items[n].id == k then n
    else
      assert k in Ids(items[..n]) by {
        var x :| x in items && x.id == k;
        var i :| 0 <= i < |items| && items[i] == x;
        assert i < n && items[..n][i] == x;
      }
      var j := LastIndexOf(items[..n], k);
      assert items[j] == items[..n][j];
      j
  }
}

=== FILE: wrappers.dfy ===
/** Go's two-valued returns, written as datatypes. */
module Wrappers {

  /** An optional value; `None` stands for Go's nil (most often a nil `error`). */
  datatype Option<+T> = None | Some(value: T)

  /** The outcome of a Go call returning `(T, error)`: a value or an error. */
  datatype Result<+T, +E> = Ok(value: T) | Err(error: E)
}
